=== FILE: README.md ===
# Habit tracker: reset engine, habit lists and weather classifiers in Dafny

This project models the logic at the heart of a React Native habit tracker.
Each habit has a cadence (minutely, hourly, daily or weekly), a streak
counter, a `completed` flag, the instant of its last completion and a
history of UTC day keys (`YYYY-MM-DD`). The model covers three pieces:

- **The context store** (`src/context/HabitContext.tsx`).
  - The reset evaluation that runs over every stored habit at load time. It
    decides, from the habit's cadence, its last completion and the current
    instant, whether to clear `completed` and whether to zero `streak`.
  - The completion toggle, which completes or undoes a habit.
  - The add, update and delete operations on the habit list.
- **The older observable store** (`src/stores/habit-store.ts`). It adds and
  deletes habits and toggles one date in a habit's list of completed dates.
- **The weather card's classifiers** (`src/components/weather-widget.tsx`).
  They map a weather code (and the local hour) to an icon, a description and
  a gradient. The component defines the gradient but does not apply it: the
  card's background is a fixed purple while loading and when showing a
  report, and a fixed gray when the report is unavailable.

Everything is a pure function. Time is a parameter: an `Instant` is a whole
number of milliseconds since the epoch. The device's local calendar is a
`Zone`, a fixed offset from UTC with no daylight saving. From an instant the
model derives the local day number, the local time of day, the weekday
(0 = Sunday, as `getDay` returns it) and the proleptic Gregorian date. The
date comes from a civil-from-days conversion, which is proved one-to-one:
its inverse recovers every day number from its date
(`Calendar.CivilRoundTrip`). So the source's
comparison of `getDate`/`getMonth`/`getFullYear` triples is the same as
comparing local day numbers. The completion toggle takes today's key from
`toISOString()`, which is a UTC day. The model writes that key out as the
real `YYYY-MM-DD` text and proves that two instants share a key exactly when
they share a UTC day.

Modules: `Wrappers` (Option), `Decimal` (number rendering), `Calendar`,
`Seqs` (filter and find on sequences), `Habits` (the record), `Reset`,
`Completion`, `HabitList`, `LegacyStore` and `Weather`.

Behaviours of the code that the model keeps as written and proves:

- **Week starts keep the time of day.** The weekly week start is the Monday
  on or before an instant, but at that instant's own time of day. Two week
  starts are equal only when both instants are in the same week and at the
  same local millisecond of the day. A weekly habit completed at 09:00 on a
  Monday and evaluated at 10:00 that Monday loses its completion and its
  streak. See `Reset.WeeklyCadence` and `Reset.WeeklySameMondayLaterHourZeroes`.
- **Today's key can be recorded twice.** Completing appends today's key
  without checking for it. A habit whose completion was cleared by reset
  evaluation and is completed again on the same UTC day gets a second copy.
- **Updates accept any field.** `updateHabit` merges any `Partial<Habit>`.
  A patch can give a habit a negative streak, or mark it completed with no
  completion instant.
- **Ids are not unique.** Ids are the wall-clock millisecond written in
  decimal, so two habits added in the same millisecond share an id. Update,
  delete and toggle then act on every record with that id. The older store's
  toggle acts only on the first.
- **Reset evaluation runs only at load.** No timer re-evaluates habits; the
  store evaluates the stored list once, when it reads it
  (`src/context/HabitContext.tsx:42`).
- **Two calendars.** Daily and weekly resets use the local calendar, but the
  completion history records the UTC day.

## Model

| member | source | states |
|---|---|---|
| Calendar.LocalDay | src/context/HabitContext.tsx:91-94 | the local day number is the day whose span of milliseconds, shifted by the zone's offset, holds the instant |
| Calendar.LocalDate | src/context/HabitContext.tsx:91-94 | the local (year, month, day) that `getFullYear`/`getMonth`/`getDate` read is a date that exists (the day at most the month's length, February 29 only in leap years), and converting it back gives the instant's local day number |
| Calendar.CivilRoundTrip | src/context/HabitContext.tsx:91-94 | every local day number is recovered from its (year, month, day), so comparing the date fields compares days |
| Calendar.CivilInjective | src/context/HabitContext.tsx:100-103 | two days have the same calendar date exactly when they are the same day |
| Calendar.UtcDayKey | src/context/HabitContext.tsx:210 | today's key has the YYYY-MM-DD shape: ten characters, dashes at positions 4 and 7 and digits elsewhere, for the years 0 to 9999 |
| Calendar.UtcDayKeyFields | src/context/HabitContext.tsx:210 | for the years 0 to 9999 the key's year, month and day fields read back as the UTC year, month and day of the instant |
| Calendar.UtcDayKeySameDay | src/context/HabitContext.tsx:220 | two instants get the same day key exactly when they fall on the same UTC day |
| Calendar.ShiftByDays | src/context/HabitContext.tsx:98-99 | moving an instant by n days moves its local day by n and keeps its local time of day, so "yesterday" is the previous local day |
| Reset.WeekStart | src/context/HabitContext.tsx:109-114 | the week start is on a Monday, at most six days back, in the Monday-based week of the input, at the input's own local time of day |
| Reset.Decide | src/context/HabitContext.tsx:69-127 | for every cadence the streak is zeroed only when the completion is also cleared |
| Reset.Evaluate | src/context/HabitContext.tsx:65-138 | a habit never completed passes unchanged; otherwise only `completed` (cleared) and `streak` (zeroed or kept) change, a well-formed streak never grows, and well-formedness is kept |
| Reset.TimedCadence | src/context/HabitContext.tsx:73-87 | minutely and hourly: under one window (or a negative elapsed time) nothing changes, one to two windows clears the completion and keeps the streak, two or more also zeroes it (60 000/120 000 ms and 3 600 000/7 200 000 ms) |
| Reset.DailyCadence | src/context/HabitContext.tsx:89-105 | same local day: no change; previous local day: completion cleared, streak kept; any other day, future ones included: streak zeroed too |
| Reset.WeeklyCadence | src/context/HabitContext.tsx:107-127 | no change only for the same Monday-based week at the same local time of day; the week before at that time of day keeps the streak; anything else zeroes it |
| Reset.WeeklySameMondayLaterHourZeroes | src/context/HabitContext.tsx:116-126 | a weekly habit completed Monday 09:00 and evaluated Monday 10:00 is cleared and its streak zeroed |
| Reset.EvaluateIdempotent | src/context/HabitContext.tsx:130-138 | evaluating twice at the same instant equals evaluating once |
| Reset.EvaluateAll | src/context/HabitContext.tsx:62-65 | one instant for the whole list; the list keeps its length and each habit is evaluated in place |
| Reset.EvaluateAllIdempotent | src/context/HabitContext.tsx:62-139 | the list evaluated twice at the same instant equals the list evaluated once |
| Reset.Load | src/context/HabitContext.tsx:36-50 | a readable stored list is exactly that list through reset evaluation at the load instant (same length, only `completed`/`streak` changed, well-formedness kept); with nothing readable the list stays empty |
| Completion.Complete | src/context/HabitContext.tsx:208-217 | completing sets `completed` and `lastCompleted = now`, adds one to the streak, and keeps the old dates as a prefix with exactly one more copy of today's key |
| Completion.Undo | src/context/HabitContext.tsx:218-226 | undoing clears `completed`, lowers the streak by one but never below zero, removes every copy of today's key and no other date, and keeps `lastCompleted` |
| Completion.Toggle | src/context/HabitContext.tsx:206-227 | a habit that is not completed is completed (`Complete`) and a completed one is undone (`Undo`); the toggle flips `completed`, keeps id, title, description, color, frequency and creation time, and keeps well-formedness |
| Completion.CompleteRecordsToday | src/context/HabitContext.tsx:210-216 | after completing, every instant of the same UTC day finds its key; other days' keys are as before |
| Completion.UndoForgetsToday | src/context/HabitContext.tsx:220-225 | after undoing, no instant of the same UTC day finds its key; other days' keys are as before |
| Completion.CompleteThenUndo | src/context/HabitContext.tsx:208-226 | complete then undo at one instant restores the streak and the dates (when today had no key before) but leaves `lastCompleted` at the completion instant |
| Completion.CompletingAgainDuplicatesToday | src/context/HabitContext.tsx:216 | completing on a day that already has its key leaves that key at least twice |
| HabitList.NewHabit | src/context/HabitContext.tsx:150-161 | a new habit has streak 0, is not completed, has no completion instant and no dates, and is well formed |
| HabitList.Add | src/context/HabitContext.tsx:143-167 | adding keeps the old list as a prefix and puts exactly one new habit at the end |
| HabitList.NewHabitIdsCollide | src/context/HabitContext.tsx:151 | two added habits get the same id exactly when they were added in the same millisecond |
| HabitList.Merge | src/context/HabitContext.tsx:177 | for each of the ten fields: a field the patch leaves out keeps the habit's value, and a field the patch carries replaces it |
| HabitList.Update | src/context/HabitContext.tsx:173-184 | updating keeps the length and order and changes exactly the habits with the id, each to its merge with the patch |
| HabitList.UpdateIdempotent | src/context/HabitContext.tsx:176-178 | the same update applied twice equals applying it once |
| HabitList.FormEditKeepsProgress | src/context/HabitContext.tsx:177 | an edit of title, description, frequency and color changes only those four fields and keeps every habit well formed |
| HabitList.UpdateCanBreakWellFormed | src/context/HabitContext.tsx:174-177 | a patch can make the streak negative or mark a habit completed with no completion instant |
| HabitList.Delete | src/context/HabitContext.tsx:187-196 | no survivor has the id, every habit with another id survives, nothing new appears, and well-formedness is kept |
| HabitList.DeleteIdempotent | src/context/HabitContext.tsx:190 | deleting twice equals deleting once |
| HabitList.DeleteAbsent | src/context/HabitContext.tsx:190 | deleting an id nobody has changes nothing |
| HabitList.DeleteKeepsOrder | src/context/HabitContext.tsx:190 | deleting works piece by piece over a concatenation, so the survivors keep their order |
| HabitList.DeleteNewHabit | src/context/HabitContext.tsx:151-164 | deleting a just-added habit by its id removes it and every older habit added in the same millisecond |
| HabitList.ToggleById | src/context/HabitContext.tsx:199-228 | the toggle keeps the length and the ids, leaves other ids untouched, replaces every habit with the id by its `Toggle` at the one instant (so its `completed` flips), and keeps well-formedness |
| HabitList.ToggleByIdTwice | src/context/HabitContext.tsx:202-226 | toggling twice at one instant restores every matching habit that was not completed, had a non-negative streak and no key for today, except `lastCompleted` |
| Decimal.IntToString | src/context/HabitContext.tsx:151 | a non-negative number renders as digits that read back as the number; a negative one as a minus sign followed by digits that read back as its magnitude; no leading zero except in "0" itself |
| Decimal.IntToStringInjective | src/context/HabitContext.tsx:151 | two whole numbers render to the same decimal text exactly when they are equal |
| Decimal.PadStart | src/context/HabitContext.tsx:210 | a zero-padded field reads back as its number and has the requested width when the number fits |
| Seqs.RemoveAll | src/context/HabitContext.tsx:225 | filtering out a value removes every copy of it and keeps every other element with its multiplicity |
| Seqs.FirstWithKey | src/stores/habit-store.ts:35 | the result is the first position holding the id, or none when no element holds it |
| LegacyStore.Add | src/stores/habit-store.ts:18-28 | adding keeps the old list as a prefix and pushes one habit with no completed dates, whose id is the millisecond in decimal |
| LegacyStore.Delete | src/stores/habit-store.ts:30-32 | no survivor has the id, every habit with another id survives, nothing new appears |
| Seqs.RemoveKeyConcat | src/stores/habit-store.ts:31 | filtering by id works piece by piece over a concatenation; both stores' deletes are this filter, so the survivors keep their order |
| LegacyStore.ToggleDate | src/stores/habit-store.ts:37-41 | the date is present afterwards exactly when it was absent before; a present date loses every copy and every other date keeps its copies; an absent date is appended at the end after the old dates |
| LegacyStore.ToggleCompletion | src/stores/habit-store.ts:34-43 | the length is kept, every field but the dates is kept in every habit, only the first habit with the id can change, its dates become those dates with `date` toggled, and an unknown id changes nothing |
| LegacyStore.ToggleDateTwice | src/stores/habit-store.ts:37-41 | toggling an absent date twice gives back the dates exactly |
| LegacyStore.ToggleFlipsMembership | src/stores/habit-store.ts:35-41 | the first habit with the id holds the date afterwards exactly when it did not before |
| LegacyStore.ToggleTwiceRestores | src/stores/habit-store.ts:34-43 | toggling an absent date twice restores the whole list exactly |
| Weather.WeatherIcon | src/components/weather-widget.tsx:43-47 | codes 0 and 1 give the sun, 2 and 3 a cloud, every other code rain, each in both directions |
| Weather.WeatherDescription | src/components/weather-widget.tsx:49-58 | each of the codes 0 to 3 has its own text, 51-67 "Rainy", 71-77 "Snowy", 80-82 "Rain Showers", and exactly the rest "Cloudy", each in both directions |
| Weather.IconMatchesDescription | src/components/weather-widget.tsx:43-58 | the sun shows exactly for "Clear Sky" and "Mainly Clear", the cloud exactly for "Partly Cloudy" and "Overcast" |
| Weather.GradientColors | src/components/weather-widget.tsx:61-75 | with no report the blue default shows at every hour; the night gradient shows exactly when there is a report and the hour is before 06:00 or from 21:00, over every code; by day it is one of the three daytime gradients |
| Weather.DaytimeGradient | src/components/weather-widget.tsx:68-74 | by day the amber gradient shows exactly with the sun icon, gray exactly for codes from 51 (so for every precipitation description), blue-cyan otherwise |

## Left out

- React context, hooks, `useCallback`/`useState` and `useHabits`: the model has the pure list transformations they wrap. The `loading` flag is not modelled.
- Storage reads and writes, `JSON.parse`/`JSON.stringify` and `console.error` are I/O. A read that finds nothing or cannot be parsed is the `None` input of `Reset.Load`, which leaves the list empty. A write after each mutation changes no state the model keeps.
- Malformed stored records are not modelled. This covers an unparseable or empty `lastCompleted` text, a missing field and a non-integer streak. `lastCompleted` is an `Option<Instant>` because the ISO text written by the toggle reads back to the same millisecond.
- The `Date` API beyond a fixed offset: daylight-saving changes and time-zone changes are not modelled. Instants outside the range `Date` accepts, where `toISOString` throws, are not modelled either; the model formats any year.
- HabitList.ToggleById: the source calls `new Date()` once per matching habit. The model uses one `now` for the whole list.
- HabitList.NewHabit: the source calls `Date.now()` twice, for the id and for `createdAt`. The model uses one millisecond for both.
- Streaks are unbounded integers. The loss of precision of a JavaScript number above 2^53 is not modelled.
- HabitList.Merge: a patch whose field is present but `undefined` would overwrite that field with `undefined`. The model treats it as absent.
- The weather `fetch`, the loading and error renderings, `Math.round` of temperature and wind speed, and the date label are network, floating point and locale concerns. The report is reduced to its integer weather code, and the hour is an input.
- The observable store's `makeAutoObservable`, `makePersistable` and `hydrate` are library plumbing. Its habit literal has no frequency, streak or completion fields, so its record has only id, title, description, color, dates and creation time.
- Screens, UI components, icons and app bootstrap have no logic to model.

=== FILE: calendar.dfy ===
/**
 The clock and calendar the habit engine reads.

 An instant is a whole number of milliseconds since the Unix epoch (what
 `Date.prototype.getTime` returns). The device's local calendar is a fixed
 offset from UTC with no daylight-saving changes, so an instant maps to a
 local day number and a local time of day, and the day number maps to a
 proleptic Gregorian (year, month, day) by the usual civil-from-days
 algorithm.
 */
module Calendar {
  import opened Decimal

  /** Milliseconds since 1970-01-01T00:00:00Z. */
  type Instant = int

  const MsPerMinute: int := 60_000
  const MsPerHour: int := 3_600_000
  const MsPerDay: int := 86_400_000

  /** The local time zone: local wall-clock time is UTC plus `offsetMs`. */
  datatype Zone = Zone(offsetMs: int)

  /** A calendar date; `month` is 1..12 (JavaScript's `getMonth` is 0-based,
      which changes no equality between dates). */
  datatype Date = Date(year: int, month: int, day: int)

  /** A Gregorian leap year: divisible by 4, and by 400 when divisible by 100. */
  predicate IsLeap(year: int)
  {
    year % 4 == 0 && (year % 100 != 0 || year % 400 == 0)
  }

  /** Days in a month, February having 29 in a leap year. */
  function MonthLength(month: int, leap: bool): int
  {
    if month == 2 then (if leap then 29 else 28)
    else if month == 4 || month == 6 || month == 9 || month == 11 then 30
    else 31
  }

  function DaysInMonth(year: int, month: int): int
  {
    MonthLength(month, IsLeap(year))
  }

  /** A date that exists in the proleptic Gregorian calendar. */
  predicate ValidDate(date: Date)
  {
    1 <= date.month <= 12 && 1 <= date.day <= DaysInMonth(date.year, date.month)
  }

  /** Number of the local day holding `t`; day 0 is the local 1970-01-01. */
  function LocalDay(zone: Zone, t: Instant): (d: int)
    ensures d * MsPerDay <= t + zone.offsetMs < (d + 1) * MsPerDay
  {
    (t + zone.offsetMs) / MsPerDay
  }

  /** Milliseconds since local midnight; together with `LocalDay` it names `t` exactly. */
  function LocalTimeOfDay(zone: Zone, t: Instant): (r: int)
    ensures 0 <= r < MsPerDay
    ensures LocalDay(zone, t) * MsPerDay + r - zone.offsetMs == t
  {
    (t + zone.offsetMs) % MsPerDay
  }

  /** Moving an instant by whole days moves its local day and keeps its local time of day. */
  lemma ShiftByDays(zone: Zone, t: Instant, n: int)
    ensures LocalDay(zone, t + n * MsPerDay) == LocalDay(zone, t) + n
    ensures LocalTimeOfDay(zone, t + n * MsPerDay) == LocalTimeOfDay(zone, t)
  {
  }

  /** Day of the week of a day number, as `Date.prototype.getDay`: 0 is Sunday,
      6 is Saturday; day 0 (1970-01-01) was a Thursday. */
  function Weekday(day: int): (r: int)
    ensures 0 <= r < 7
  {
    (day + 4) % 7
  }

  /** Number of the Monday-to-Sunday week holding a day; week 0 runs from
      Monday 1969-12-29 to Sunday 1970-01-04. */
  function WeekOf(day: int): (w: int)
    ensures 7 * w - 3 <= day < 7 * w + 4
    ensures Weekday(7 * w - 3) == 1
  {
    (day + 3) / 7
  }

  /** The local calendar date of `t` (`getFullYear`, `getMonth`, `getDate`). */
  function LocalDate(zone: Zone, t: Instant): (r: Date)
    ensures ValidDate(r)
    ensures DaysFromCivil(r) == LocalDay(zone, t)
  {
    CivilRoundTrip(LocalDay(zone, t));
    CivilFromDays(LocalDay(zone, t))
  }

  /** Number of the UTC day holding `t`. */
  function UtcDay(t: Instant): int
  {
    t / MsPerDay
  }

  /** The date part of `t.toISOString()`, the text before the `T`: the UTC
      calendar day of `t` written YYYY-MM-DD. */
  function UtcDayKey(t: Instant): (key: string)
    ensures 0 <= CivilFromDays(UtcDay(t)).year <= 9999 ==>
              |key| == 10 && key[4] == '-' && key[7] == '-'
              && forall i :: 0 <= i < 10 && i != 4 && i != 7 ==> IsDigit(key[i])
  {
    IsoDate(CivilFromDays(UtcDay(t)))
  }

  /** The day key's fields read back as the UTC year, month and day of `t`. */
  lemma UtcDayKeyFields(t: Instant)
    requires 0 <= CivilFromDays(UtcDay(t)).year <= 9999
    ensures var k := UtcDayKey(t);
            var d := CivilFromDays(UtcDay(t));
            && AllDigits(k[..4]) && AllDigits(k[5..7]) && AllDigits(k[8..])
            && ValueOf(k[..4]) == d.year && ValueOf(k[5..7]) == d.month && ValueOf(k[8..]) == d.day
  {
    var k := UtcDayKey(t);
    var d := CivilFromDays(UtcDay(t));
    assert k == PadStart(d.year, 4) + MonthDayText(d.month, d.day);
    assert k[..4] == PadStart(d.year, 4);
    assert k[5..7] == PadStart(d.month, 2);
    assert k[8..] == PadStart(d.day, 2);
  }

  /** A date as `toISOString` writes it. */
  function IsoDate(date: Date): (s: string)
    requires 1 <= date.month <= 12 && 1 <= date.day <= 31
    ensures 0 <= date.year <= 9999 ==>
              |s| == 10 && s[4] == '-' && s[7] == '-'
              && forall i :: 0 <= i < 10 && i != 4 && i != 7 ==> IsDigit(s[i])
  {
    IsoYear(date.year) + MonthDayText(date.month, date.day)
  }

  /** The `-MM-DD` part of an ISO date. */
  function MonthDayText(month: int, day: int): (s: string)
    requires 1 <= month <= 12 && 1 <= day <= 31
    ensures |s| == 6 && s[0] == '-' && s[3] == '-'
    ensures IsDigit(s[1]) && IsDigit(s[2]) && IsDigit(s[4]) && IsDigit(s[5])
  {
    var mm := PadStart(month, 2);
    var dd := PadStart(day, 2);
    assert IsDigit(mm[0]) && IsDigit(mm[1]) && IsDigit(dd[0]) && IsDigit(dd[1]);
    ['-', mm[0], mm[1], '-', dd[0], dd[1]]
  }

  /** The year field of `toISOString`: four digits for the years 0 to 9999,
      otherwise a sign and at least six digits. */
  function IsoYear(y: int): (s: string)
    ensures 0 <= y <= 9999 ==> |s| == 4 && AllDigits(s)
    ensures y < 0 || 9999 < y ==> 7 <= |s| && !IsDigit(s[0])
  {
    if 0 <= y <= 9999 then PadStart(y, 4)
    else if y < 0 then "-" + PadStart(-y, 6)
    else "+" + PadStart(y, 6)
  }

  /** Two instants get the same day key exactly when they fall on the same UTC day. */
  lemma UtcDayKeySameDay(a: Instant, b: Instant)
    ensures UtcDayKey(a) == UtcDayKey(b) <==> UtcDay(a) == UtcDay(b)
  {
    var da, db := CivilFromDays(UtcDay(a)), CivilFromDays(UtcDay(b));
    if UtcDayKey(a) == UtcDayKey(b) {
      IsoDateInjective(da, db);
      CivilInjective(UtcDay(a), UtcDay(b));
    }
  }

  lemma IsoDateInjective(a: Date, b: Date)
    requires 1 <= a.month <= 12 && 1 <= a.day <= 31
    requires 1 <= b.month <= 12 && 1 <= b.day <= 31
    requires IsoDate(a) == IsoDate(b)
    ensures a == b
  {
    var ta, tb := MonthDayText(a.month, a.day), MonthDayText(b.month, b.day);
    SplitAtEnd(IsoYear(a.year), ta, IsoYear(b.year), tb);
    IsoYearInjective(a.year, b.year);
    var ma, mb := PadStart(a.month, 2), PadStart(b.month, 2);
    var da, db := PadStart(a.day, 2), PadStart(b.day, 2);
    assert ma == [ta[1], ta[2]] && mb == [tb[1], tb[2]];
    assert da == [ta[4], ta[5]] && db == [tb[4], tb[5]];
  }

  /** Two concatenations with equally long ends are equal part by part. */
  lemma SplitAtEnd(a: string, b: string, c: string, d: string)
    requires a + b == c + d && |b| == |d|
    ensures a == c && b == d
  {
    assert a == (a + b)[..|a|];
    assert c == (c + d)[..|c|];
  }

  lemma IsoYearInjective(a: int, b: int)
    requires IsoYear(a) == IsoYear(b)
    ensures a == b
  {
    if a < 0 || 9999 < a {
      var s := IsoYear(a);
      assert PadStart(if a < 0 then -a else a, 6) == s[1..];
      assert PadStart(if b < 0 then -b else b, 6) == s[1..];
    }
  }

  /** Converts a day number to its proleptic Gregorian date. Days are
      counted in 400-year eras that start on 1 March of a year divisible by
      400, so each year of an era runs from 1 March and a leap day is the
      last day of its year. */
  function CivilFromDays(n: int): (r: Date)
    ensures 1 <= r.month <= 12
    ensures 1 <= r.day <= 31
    ensures ValidDate(r)
  {
    var z := n + 719_468;
    var era := z / 146_097;
    var yd := SplitEra(z - era * 146_097);
    var md := SplitYear(yd.dayOfYear);
    var y := yd.yearOfEra + era * 400;
    LeapAcrossEras(yd.yearOfEra + 1, era);
    Date(if md.month <= 2 then y + 1 else y, md.month, md.day)
  }

  /** Leap years repeat every 400 years. */
  lemma LeapAcrossEras(y: int, era: int)
    ensures IsLeap(y + era * 400) == IsLeap(y)
  {
    ShiftMod4(y, 100 * era);
    ShiftMod100(y, 4 * era);
    ShiftMod400(y, era);
  }

  /** Adding a multiple of 4, 100 or 400 keeps the remainder by it. */
  lemma ShiftMod4(y: int, k: int)
    ensures (y + 4 * k) % 4 == y % 4
  {
    assert y + 4 * k == 4 * (y / 4 + k) + y % 4;
  }

  lemma ShiftMod100(y: int, k: int)
    ensures (y + 100 * k) % 100 == y % 100
  {
    assert y + 100 * k == 100 * (y / 100 + k) + y % 100;
  }

  lemma ShiftMod400(y: int, k: int)
    ensures (y + 400 * k) % 400 == y % 400
  {
    assert y + 400 * k == 400 * (y / 400 + k) + y % 400;
  }

  /** Converts a date to its day number; the inverse of `CivilFromDays`. */
  function DaysFromCivil(date: Date): int
  {
    var y := if date.month <= 2 then date.year - 1 else date.year;
    var era := y / 400;
    var yoe := y - era * 400;
    era * 146_097 + DaysBeforeYearOfEra(yoe) + DayOfYear(date.month, date.day) - 719_468
  }

  /** A month and a day of that month. */
  datatype MonthDay = MonthDay(month: int, day: int)

  /** The day of a March-based year holding `day` of `month`. */
  function DayOfYear(month: int, day: int): int
  {
    var mp := if month > 2 then month - 3 else month + 9;
    (153 * mp + 2) / 5 + day - 1
  }

  /** Splits a day of a March-based year into month and day; January and
      February close the year. */
  function SplitYear(doy: int): (r: MonthDay)
    requires 0 <= doy <= 365
    ensures 1 <= r.month <= 12 && 1 <= r.day <= 31
    ensures r.month <= 2 <==> doy >= 306
    ensures DayOfYear(r.month, r.day) == doy
    ensures r.day <= MonthLength(r.month, doy == 365)
  {
    var mp := (5 * doy + 2) / 153;
    assert 0 <= mp < 12;
    var d := doy - (153 * mp + 2) / 5 + 1;
    MonthDay(if mp < 10 then mp + 3 else mp - 9, d)
  }

  /** Days in an era before the (March-based) year `yoe` of that era. */
  function DaysBeforeYearOfEra(yoe: int): int
  {
    365 * yoe + yoe / 4 - yoe / 100
  }

  /** A position inside an era: the year of the era and the day of that year. */
  datatype YearDay = YearDay(yearOfEra: int, dayOfYear: int)

  /** Splits the day `doe` of an era into its year (centuries of 36 524 days,
      four-year runs of 1 461 days, years of 365 days, and the era's final
      leap day) and its day within that year. */
  function SplitEra(doe: int): (r: YearDay)
    requires 0 <= doe < 146_097
    ensures 0 <= r.yearOfEra < 400
    ensures 0 <= r.dayOfYear <= 365
    ensures DaysBeforeYearOfEra(r.yearOfEra) + r.dayOfYear == doe
    ensures r.dayOfYear == 365 ==> IsLeap(r.yearOfEra + 1)
  {
    if doe == 146_096 then
      YearDay(399, 365)
    else
      var century := doe / 36_524;
      var doc := doe % 36_524;
      var run := doc / 1461;
      var dor := doc % 1461;
      var yearInRun := if dor == 1460 then 3 else dor / 365;
      var doy := if dor == 1460 then 365 else dor % 365;
      var yoe := 100 * century + 4 * run + yearInRun;
      assert 0 <= century < 4 && 0 <= run < 25 && 0 <= yearInRun < 4;
      assert yoe / 4 == 25 * century + run;
      assert yoe / 100 == century;
      YearDay(yoe, doy)
  }

  /** Every day number is recovered from its date. */
  lemma CivilRoundTrip(n: int)
    ensures DaysFromCivil(CivilFromDays(n)) == n
  {
    var z := n + 719_468;
    var era := z / 146_097;
    var yd := SplitEra(z - era * 146_097);
    var md := SplitYear(yd.dayOfYear);
    var date := CivilFromDays(n);
    var y := if date.month <= 2 then date.year - 1 else date.year;
    assert y == yd.yearOfEra + era * 400;
    assert y / 400 == era;
  }

  /** Two days have the same date exactly when they are the same day. */
  lemma CivilInjective(a: int, b: int)
    ensures CivilFromDays(a) == CivilFromDays(b) <==> a == b
  {
    CivilRoundTrip(a);
    CivilRoundTrip(b);
  }
}

=== FILE: completion.dfy ===
/**
 The completion toggle of the context store: completing a habit records the
 instant, bumps the streak and appends today's UTC day key; undoing it
 lowers the streak (never below zero) and drops today's key.
 */
module Completion {
  import opened Wrappers
  import opened Calendar
  import opened Habits
  import opened Seqs

  /** Marks `h` completed at `now`. Today's key is appended even when it is
      already present. */
  function Complete(h: Habit, now: Instant): (r: Habit)
    ensures r.completed && r.lastCompleted == Some(now)
    ensures r.streak == h.streak + 1
    ensures |r.completedDates| == |h.completedDates| + 1
    ensures r.completedDates[..|h.completedDates|] == h.completedDates
    ensures multiset(r.completedDates) == multiset(h.completedDates)[UtcDayKey(now) := multiset(h.completedDates)[UtcDayKey(now)] + 1]
    ensures r == h.(completed := r.completed, streak := r.streak, lastCompleted := r.lastCompleted,
                    completedDates := r.completedDates)
  {
    var today := UtcDayKey(now);
    var dates := h.completedDates + [today];
    assert multiset(dates) == multiset(h.completedDates) + multiset{today};
    h.(completed := true, lastCompleted := Some(now), streak := h.streak + 1, completedDates := dates)
  }

  /** Undoes the completion of `h` at `now`: every copy of today's key goes,
      the streak drops by one but not below zero, `lastCompleted` stays. */
  function Undo(h: Habit, now: Instant): (r: Habit)
    ensures !r.completed && r.lastCompleted == h.lastCompleted
    ensures h.streak >= 1 ==> r.streak == h.streak - 1
    ensures h.streak < 1 ==> r.streak == 0
    ensures multiset(r.completedDates) == multiset(h.completedDates)[UtcDayKey(now) := 0]
    ensures r == h.(completed := r.completed, streak := r.streak, completedDates := r.completedDates)
  {
    h.(completed := false, streak := if 0 > h.streak - 1 then 0 else h.streak - 1,
       completedDates := RemoveAll(h.completedDates, UtcDayKey(now)))
  }

  /** The toggle: completes a habit that is not completed, undoes one that is. */
  function Toggle(h: Habit, now: Instant): (r: Habit)
    ensures r.completed == !h.completed
    ensures !h.completed ==> r == Complete(h, now)
    ensures h.completed ==> r == Undo(h, now)
    ensures r.id == h.id && r.title == h.title && r.description == h.description
    ensures r.color == h.color && r.frequency == h.frequency && r.createdAt == h.createdAt
    ensures WellFormed(h) ==> WellFormed(r)
  {
    if !h.completed then Complete(h, now) else Undo(h, now)
  }

  /** After completing, every instant of the same UTC day finds its day key
      among the completed dates; keys of other days are present exactly as before. */
  lemma CompleteRecordsToday(h: Habit, now: Instant)
    ensures forall t :: UtcDay(t) == UtcDay(now) ==> UtcDayKey(t) in Complete(h, now).completedDates
    ensures forall t :: UtcDay(t) != UtcDay(now) ==>
              (UtcDayKey(t) in Complete(h, now).completedDates <==> UtcDayKey(t) in h.completedDates)
  {
    var r := Complete(h, now);
    assert r.completedDates[|h.completedDates|] == UtcDayKey(now);
    forall t | UtcDay(t) != UtcDay(now)
      ensures UtcDayKey(t) in r.completedDates <==> UtcDayKey(t) in h.completedDates
    {
      UtcDayKeySameDay(t, now);
      assert multiset(r.completedDates)[UtcDayKey(t)] == multiset(h.completedDates)[UtcDayKey(t)];
    }
  }

  /** After undoing, no instant of the same UTC day finds its day key; keys of
      other days are present exactly as before. */
  lemma UndoForgetsToday(h: Habit, now: Instant)
    ensures forall t :: UtcDay(t) == UtcDay(now) ==> UtcDayKey(t) !in Undo(h, now).completedDates
    ensures forall t :: UtcDay(t) != UtcDay(now) ==>
              (UtcDayKey(t) in Undo(h, now).completedDates <==> UtcDayKey(t) in h.completedDates)
  {
    var r := Undo(h, now);
    forall t | UtcDay(t) != UtcDay(now)
      ensures UtcDayKey(t) in r.completedDates <==> UtcDayKey(t) in h.completedDates
    {
      UtcDayKeySameDay(t, now);
      assert multiset(r.completedDates)[UtcDayKey(t)] == multiset(h.completedDates)[UtcDayKey(t)];
    }
  }

  /** Completing then undoing at the same instant gives back the streak and,
      when today had no key before, the completed dates; `lastCompleted` keeps
      the completion instant. */
  lemma CompleteThenUndo(h: Habit, now: Instant)
    requires !h.completed && h.streak >= 0
    ensures var r := Toggle(Toggle(h, now), now);
            && r.streak == h.streak
            && !r.completed
            && r.lastCompleted == Some(now)
            && r.completedDates == RemoveAll(h.completedDates, UtcDayKey(now))
            && (UtcDayKey(now) !in h.completedDates ==> r == h.(lastCompleted := Some(now)))
  {
    var key := UtcDayKey(now);
    RemoveAllConcat(h.completedDates, [key], key);
    assert RemoveAll([key], key) == [];
    if key !in h.completedDates {
      RemoveAllAbsent(h.completedDates, key);
    }
  }

  /** Completing a habit whose completion was cleared by reset evaluation on
      a day that already has its key records that day twice. */
  lemma CompletingAgainDuplicatesToday(h: Habit, now: Instant)
    requires !h.completed && UtcDayKey(now) in h.completedDates
    ensures var dates := Toggle(h, now).completedDates;
            multiset(dates)[UtcDayKey(now)] >= 2
  {
  }
}

=== FILE: decimal.dfy ===
/**
 Decimal rendering of whole numbers, as JavaScript's `Number.prototype.toString`
 and the zero-padded fields of `Date.prototype.toISOString` produce it, and
 the reading back that shows the rendering loses nothing.
 */
module Decimal {

  predicate IsDigit(c: char)
  {
    '0' <= c <= '9'
  }

  predicate AllDigits(s: string)
  {
    forall i :: 0 <= i < |s| ==> IsDigit(s[i])
  }

  function DigitChar(d: int): (c: char)
    requires 0 <= d < 10
    ensures IsDigit(c) && DigitValue(c) == d
  {
    ('0' as int + d) as char
  }

  function DigitValue(c: char): int
    requires IsDigit(c)
  {
    c as int - '0' as int
  }

  /** The value of a string of decimal digits (the empty string reads as 0). */
  function ValueOf(s: string): nat
    requires AllDigits(s)
  {
    if |s| == 0 then 0 else ValueOf(s[..|s| - 1]) * 10 + DigitValue(s[|s| - 1])
  }

  /** The shortest decimal rendering of `n`: digits only, no leading zero. */
  function NatToString(n: nat): (s: string)
    ensures 1 <= |s| && AllDigits(s)
    ensures s[0] == '0' ==> s == "0"
    decreases n
  {
    if n < 10 then [DigitChar(n)] else NatToString(n / 10) + [DigitChar(n % 10)]
  }

  /** `Number.prototype.toString` of a whole number: a minus sign for a negative one. */
  function IntToString(n: int): (s: string)
    ensures 0 <= n ==> 1 <= |s| && AllDigits(s) && ValueOf(s) == n
    ensures 0 <= n ==> (s[0] == '0' ==> s == "0")
    ensures n < 0 ==> 2 <= |s| && s[0] == '-' && AllDigits(s[1..]) && ValueOf(s[1..]) == -n
    ensures n < 0 ==> s[1] != '0'
  {
    if n < 0 then
      ValueOfNatToString(-n);
      assert ("-" + NatToString(-n))[1..] == NatToString(-n);
      "-" + NatToString(-n)
    else
      ValueOfNatToString(n);
      NatToString(n)
  }

  /** `n` rendered with at least `width` digits, padded with leading zeros. */
  function PadStart(n: nat, width: nat): (s: string)
    ensures AllDigits(s) && ValueOf(s) == n
    ensures |s| == if width > |NatToString(n)| then width else |NatToString(n)|
    ensures 1 <= width && n < Pow10(width) ==> |s| == width
  {
    var digits := NatToString(n);
    ValueOfNatToString(n);
    NatToStringWidth(n, width);
    if |digits| >= width then digits
    else
      ValueOfLeadingZeros(width - |digits|, digits);
      Zeros(width - |digits|) + digits
  }

  function Zeros(k: nat): (s: string)
    ensures |s| == k && AllDigits(s)
    ensures forall i :: 0 <= i < k ==> s[i] == '0'
  {
    if k == 0 then "" else Zeros(k - 1) + "0"
  }

  function Pow10(k: nat): (r: nat)
    ensures 1 <= r
  {
    if k == 0 then 1 else 10 * Pow10(k - 1)
  }

  /** A number below 10^k takes at most k digits. */
  lemma {:induction false} NatToStringWidth(n: nat, k: nat)
    ensures 1 <= k && n < Pow10(k) ==> |NatToString(n)| <= k
    decreases n
  {
    if n >= 10 && 1 <= k && n < Pow10(k) {
      assert 2 <= k;
      NatToStringWidth(n / 10, k - 1);
    }
  }

  /** Reading a rendering gives back the number. */
  lemma {:induction false} ValueOfNatToString(n: nat)
    ensures ValueOf(NatToString(n)) == n
    decreases n
  {
    if n >= 10 {
      var s := NatToString(n);
      assert s[..|s| - 1] == NatToString(n / 10);
      ValueOfNatToString(n / 10);
    }
  }

  /** Leading zeros do not change a value. */
  lemma {:induction false} ValueOfLeadingZeros(k: nat, s: string)
    requires AllDigits(s)
    ensures ValueOf(Zeros(k) + s) == ValueOf(s)
    decreases |s|
  {
    if |s| == 0 {
      assert Zeros(k) + s == Zeros(k);
      ValueOfZeros(k);
    } else {
      var t := Zeros(k) + s;
      assert t[..|t| - 1] == Zeros(k) + s[..|s| - 1];
      ValueOfLeadingZeros(k, s[..|s| - 1]);
    }
  }

  lemma {:induction false} ValueOfZeros(k: nat)
    ensures ValueOf(Zeros(k)) == 0
    decreases k
  {
    if k > 0 {
      var z := Zeros(k);
      assert z[..k - 1] == Zeros(k - 1);
      assert DigitValue(z[k - 1]) == 0;
      ValueOfZeros(k - 1);
      assert ValueOf(z) == ValueOf(Zeros(k - 1)) * 10;
    }
  }

  /** Two whole numbers render alike exactly when they are equal. */
  lemma IntToStringInjective(a: int, b: int)
    ensures IntToString(a) == IntToString(b) <==> a == b
  {
  }
}

=== FILE: habit_list.dfy ===
/**
 The list operations of the context store: add, update, delete and the
 completion toggle, each a transformation of the whole habit list. Records
 are matched by `id`, and nothing makes ids unique, so every operation acts
 on all records sharing the id.
 */
module HabitList {
  import opened Wrappers
  import opened Calendar
  import opened Decimal
  import opened Habits
  import opened Completion
  import opened Seqs

  /** The habit `addHabit` creates at wall-clock millisecond `nowMs`: its id is
      that millisecond written in decimal. */
  function NewHabit(title: string, description: string, frequency: Frequency, color: string,
                    nowMs: Instant): (h: Habit)
    ensures WellFormed(h)
    ensures h.streak == 0 && !h.completed && h.lastCompleted == None && h.completedDates == []
    ensures h.title == title && h.description == Some(description)
    ensures h.frequency == frequency && h.color == color && h.createdAt == nowMs
  {
    Habit(IntToString(nowMs), title, Some(description), color, frequency, 0, false, None, [], nowMs)
  }

  /** `addHabit`: the list with one new habit at its end. */
  function Add(habits: seq<Habit>, title: string, description: string, frequency: Frequency,
               color: string, nowMs: Instant): (r: seq<Habit>)
    ensures |r| == |habits| + 1 && r[..|habits|] == habits
    ensures r[|habits|] == NewHabit(title, description, frequency, color, nowMs)
    ensures AllWellFormed(habits) ==> AllWellFormed(r)
  {
    habits + [NewHabit(title, description, frequency, color, nowMs)]
  }

  /** A `Partial<Habit>`: `Some` for each field the update carries. */
  datatype Patch = Patch(
    id: Option<string>,
    title: Option<string>,
    description: Option<Option<string>>,
    color: Option<string>,
    frequency: Option<Frequency>,
    streak: Option<int>,
    completed: Option<bool>,
    lastCompleted: Option<Option<Instant>>,
    completedDates: Option<seq<string>>,
    createdAt: Option<Instant>)

  /** The patch the edit screens send: title, description, frequency and color. */
  function FormEdit(title: string, description: string, frequency: Frequency, color: string): Patch
  {
    Patch(None, Some(title), Some(Some(description)), Some(color), Some(frequency),
          None, None, None, None, None)
  }

  /** `{...habit, ...updates}`: each field the patch carries replaces the habit's. */
  function Merge(h: Habit, p: Patch): (r: Habit)
    ensures p.id.None? ==> r.id == h.id
    ensures p.id.Some? ==> r.id == p.id.value
    ensures p.title.None? ==> r.title == h.title
    ensures p.title.Some? ==> r.title == p.title.value
    ensures p.description.None? ==> r.description == h.description
    ensures p.description.Some? ==> r.description == p.description.value
    ensures p.color.None? ==> r.color == h.color
    ensures p.color.Some? ==> r.color == p.color.value
    ensures p.frequency.None? ==> r.frequency == h.frequency
    ensures p.frequency.Some? ==> r.frequency == p.frequency.value
    ensures p.streak.None? ==> r.streak == h.streak
    ensures p.streak.Some? ==> r.streak == p.streak.value
    ensures p.completed.None? ==> r.completed == h.completed
    ensures p.completed.Some? ==> r.completed == p.completed.value
    ensures p.lastCompleted.None? ==> r.lastCompleted == h.lastCompleted
    ensures p.lastCompleted.Some? ==> r.lastCompleted == p.lastCompleted.value
    ensures p.completedDates.None? ==> r.completedDates == h.completedDates
    ensures p.completedDates.Some? ==> r.completedDates == p.completedDates.value
    ensures p.createdAt.None? ==> r.createdAt == h.createdAt
    ensures p.createdAt.Some? ==> r.createdAt == p.createdAt.value
  {
    Habit(
      p.id.GetOr(h.id),
      p.title.GetOr(h.title),
      p.description.GetOr(h.description),
      p.color.GetOr(h.color),
      p.frequency.GetOr(h.frequency),
      p.streak.GetOr(h.streak),
      p.completed.GetOr(h.completed),
      p.lastCompleted.GetOr(h.lastCompleted),
      p.completedDates.GetOr(h.completedDates),
      p.createdAt.GetOr(h.createdAt))
  }

  /** `updateHabit`: every habit with the id merged with the patch, the others as they were. */
  function Update(habits: seq<Habit>, id: string, p: Patch): (r: seq<Habit>)
    ensures |r| == |habits|
    ensures forall i :: 0 <= i < |r| && habits[i].id != id ==> r[i] == habits[i]
    ensures forall i :: 0 <= i < |r| && habits[i].id == id ==> r[i] == Merge(habits[i], p)
  {
    seq(|habits|, i requires 0 <= i < |habits| => if habits[i].id == id then Merge(habits[i], p) else habits[i])
  }

  /** `deleteHabit`: the list without every habit that has the id. */
  function Delete(habits: seq<Habit>, id: string): (r: seq<Habit>)
    ensures forall i :: 0 <= i < |r| ==> r[i].id != id
    ensures forall i :: 0 <= i < |habits| && habits[i].id != id ==> habits[i] in r
    ensures forall i :: 0 <= i < |r| ==> r[i] in habits
    ensures AllWellFormed(habits) ==> AllWellFormed(r)
  {
    RemoveKey(habits, IdOf, id)
  }

  /** `toggleHabitCompletion`: every habit with the id toggled at `now`. */
  function ToggleById(habits: seq<Habit>, id: string, now: Instant): (r: seq<Habit>)
    ensures |r| == |habits|
    ensures forall i :: 0 <= i < |r| ==> r[i].id == habits[i].id
    ensures forall i :: 0 <= i < |r| && habits[i].id != id ==> r[i] == habits[i]
    ensures forall i :: 0 <= i < |r| && habits[i].id == id ==> r[i].completed == !habits[i].completed
    ensures forall i :: 0 <= i < |r| && habits[i].id == id ==> r[i] == Toggle(habits[i], now)
    ensures AllWellFormed(habits) ==> AllWellFormed(r)
  {
    seq(|habits|, i requires 0 <= i < |habits| => if habits[i].id == id then Toggle(habits[i], now) else habits[i])
  }

  /** Two habits added at wall-clock milliseconds `a` and `b` get the same id
      exactly when `a == b`. */
  lemma NewHabitIdsCollide(t1: string, d1: string, f1: Frequency, c1: string, a: Instant,
                           t2: string, d2: string, f2: Frequency, c2: string, b: Instant)
    ensures NewHabit(t1, d1, f1, c1, a).id == NewHabit(t2, d2, f2, c2, b).id <==> a == b
  {
    IntToStringInjective(a, b);
  }

  /** Deleting twice is deleting once. */
  lemma DeleteIdempotent(habits: seq<Habit>, id: string)
    ensures Delete(Delete(habits, id), id) == Delete(habits, id)
  {
    RemoveKeyAbsent(Delete(habits, id), IdOf, id);
  }

  /** Deleting an id nobody has changes nothing. */
  lemma DeleteAbsent(habits: seq<Habit>, id: string)
    requires forall i :: 0 <= i < |habits| ==> habits[i].id != id
    ensures Delete(habits, id) == habits
  {
    RemoveKeyAbsent(habits, IdOf, id);
  }

  /** Deleting works piecewise, so the survivors keep their order. */
  lemma DeleteKeepsOrder(a: seq<Habit>, b: seq<Habit>, id: string)
    ensures Delete(a + b, id) == Delete(a, id) + Delete(b, id)
  {
    RemoveKeyConcat(a, b, IdOf, id);
  }

  /** Deleting a just-added habit by its id also removes every older habit
      that was added in the same millisecond. */
  lemma DeleteNewHabit(habits: seq<Habit>, title: string, description: string,
                       frequency: Frequency, color: string, nowMs: Instant)
    ensures var id := NewHabit(title, description, frequency, color, nowMs).id;
            Delete(Add(habits, title, description, frequency, color, nowMs), id) == Delete(habits, id)
  {
    var h := NewHabit(title, description, frequency, color, nowMs);
    DeleteKeepsOrder(habits, [h], h.id);
    assert Delete([h], h.id) == [];
  }

  /** Updating twice with the same patch is updating once. */
  lemma UpdateIdempotent(habits: seq<Habit>, id: string, p: Patch)
    ensures Update(Update(habits, id, p), id, p) == Update(habits, id, p)
  {
  }

  /** An edit from the form changes only title, description, frequency and
      color, so it keeps every habit well formed. */
  lemma FormEditKeepsProgress(habits: seq<Habit>, id: string, title: string, description: string,
                              frequency: Frequency, color: string)
    ensures var r := Update(habits, id, FormEdit(title, description, frequency, color));
            && (forall i :: 0 <= i < |r| && habits[i].id == id ==>
                  r[i] == habits[i].(title := title, description := Some(description),
                                     frequency := frequency, color := color))
            && (AllWellFormed(habits) ==> AllWellFormed(r))
  {
  }

  /** The update accepts any field: a patch can give a habit a negative streak,
      or mark it completed with no completion instant. */
  lemma UpdateCanBreakWellFormed(h: Habit)
    ensures var negative := Patch(None, None, None, None, None, Some(-1), None, None, None, None);
            !WellFormed(Update([h], h.id, negative)[0])
    ensures var done := Patch(None, None, None, None, None, None, Some(true), Some(None), None, None);
            !WellFormed(Update([h], h.id, done)[0])
  {
  }

  /** Toggling twice at the same instant restores every habit that was not
      completed, had no key for today and a non-negative streak, except that
      it keeps the completion instant. */
  lemma ToggleByIdTwice(habits: seq<Habit>, id: string, now: Instant)
    ensures var r := ToggleById(ToggleById(habits, id, now), id, now);
            forall i :: 0 <= i < |habits| ==>
              if habits[i].id != id then r[i] == habits[i]
              else (!habits[i].completed && habits[i].streak >= 0 && UtcDayKey(now) !in habits[i].completedDates
                    ==> r[i] == habits[i].(lastCompleted := Some(now)))
  {
    var r := ToggleById(ToggleById(habits, id, now), id, now);
    forall i | 0 <= i < |habits| && habits[i].id == id && !habits[i].completed && habits[i].streak >= 0
               && UtcDayKey(now) !in habits[i].completedDates
      ensures r[i] == habits[i].(lastCompleted := Some(now))
    {
      CompleteThenUndo(habits[i], now);
    }
  }
}

=== FILE: habits.dfy ===
/** The habit record shared by the context store and the screens. */
module Habits {
  import opened Wrappers
  import opened Calendar

  /** How often a completion must be renewed; `Minutely` is a one-minute cadence meant for trying the app out. */
  datatype Frequency = Minutely | Hourly | Daily | Weekly

  /** One habit. `lastCompleted` is the instant of the latest completion (stored
      as its ISO-8601 text, which keeps every millisecond); `completedDates`
      holds the UTC day keys (YYYY-MM-DD) of completions, kept as history. */
  datatype Habit = Habit(
    id: string,
    title: string,
    description: Option<string>,
    color: string,
    frequency: Frequency,
    streak: int,
    completed: bool,
    lastCompleted: Option<Instant>,
    completedDates: seq<string>,
    createdAt: Instant)

  function IdOf(h: Habit): string
  {
    h.id
  }

  /** The record invariant the app relies on: the streak is never negative and
      a completed habit has a completion instant. */
  predicate WellFormed(h: Habit)
  {
    h.streak >= 0 && (h.completed ==> h.lastCompleted.Some?)
  }

  predicate AllWellFormed(habits: seq<Habit>)
  {
    forall i :: 0 <= i < |habits| ==> WellFormed(habits[i])
  }
}

=== FILE: legacy_store.dfy ===
/**
 The older observable habit store: a list of habits whose only progress is
 the list of dates marked done. Marking toggles one date in the first habit
 with the given id.
 */
module LegacyStore {
  import opened Wrappers
  import opened Calendar
  import opened Decimal
  import opened Seqs

  datatype LegacyHabit = LegacyHabit(
    id: string,
    title: string,
    description: Option<string>,
    color: string,
    completedDates: seq<string>,
    createdAt: Instant)

  function IdOf(h: LegacyHabit): string
  {
    h.id
  }

  /** `addHabit`: a new habit with no completed dates pushed at the end; its
      id is the wall-clock millisecond `nowMs` in decimal. */
  function Add(habits: seq<LegacyHabit>, title: string, description: string, color: string,
               nowMs: Instant): (r: seq<LegacyHabit>)
    ensures |r| == |habits| + 1 && r[..|habits|] == habits
    ensures r[|habits|].completedDates == [] && r[|habits|].createdAt == nowMs
    ensures r[|habits|].title == title && r[|habits|].description == Some(description)
    ensures r[|habits|].color == color
    ensures r[|habits|].id == IntToString(nowMs)
  {
    habits + [LegacyHabit(IntToString(nowMs), title, Some(description), color, [], nowMs)]
  }

  /** `deleteHabit`: the list without every habit that has the id. */
  function Delete(habits: seq<LegacyHabit>, id: string): (r: seq<LegacyHabit>)
    ensures forall i :: 0 <= i < |r| ==> r[i].id != id
    ensures forall i :: 0 <= i < |habits| && habits[i].id != id ==> habits[i] in r
    ensures forall i :: 0 <= i < |r| ==> r[i] in habits
  {
    RemoveKey(habits, IdOf, id)
  }

  /** One date toggled in a list of dates: every copy removed when present,
      pushed at the end when absent. */
  function ToggleDate(dates: seq<string>, date: string): (r: seq<string>)
    ensures date in r <==> date !in dates
    ensures date in dates ==> multiset(r) == multiset(dates)[date := 0]
    ensures date !in dates ==> |r| == |dates| + 1 && r[..|dates|] == dates
    ensures forall i :: 0 <= i < |dates| && dates[i] != date ==> dates[i] in r
    ensures forall i :: 0 <= i < |r| ==> r[i] == date || r[i] in dates
  {
    if date in dates then RemoveAll(dates, date) else dates + [date]
  }

  /** `toggleCompletion`: `date` toggled in the first habit with the id; the
      list is unchanged when no habit has it. */
  function ToggleCompletion(habits: seq<LegacyHabit>, id: string, date: string): (r: seq<LegacyHabit>)
    ensures |r| == |habits|
    ensures forall i :: 0 <= i < |r| ==> r[i].id == habits[i].id
    ensures forall i :: 0 <= i < |r| ==> r[i] == habits[i].(completedDates := r[i].completedDates)
    ensures forall i :: 0 <= i < |r| && r[i] != habits[i] ==>
              habits[i].id == id && forall j :: 0 <= j < i ==> habits[j].id != id
    ensures (forall i :: 0 <= i < |habits| ==> habits[i].id != id) ==> r == habits
    ensures FirstWithKey(habits, IdOf, id).Some? ==>
              var i := FirstWithKey(habits, IdOf, id).value;
              r[i].completedDates == ToggleDate(habits[i].completedDates, date)
  {
    match FirstWithKey(habits, IdOf, id)
    case None => habits
    case Some(i) =>
      habits[i := habits[i].(completedDates := ToggleDate(habits[i].completedDates, date))]
  }

  /** After toggling, the first habit with the id holds `date` exactly when it did not before. */
  lemma ToggleFlipsMembership(habits: seq<LegacyHabit>, id: string, date: string, i: nat)
    requires i < |habits| && habits[i].id == id
    requires forall j :: 0 <= j < i ==> habits[j].id != id
    ensures date in ToggleCompletion(habits, id, date)[i].completedDates <==> date !in habits[i].completedDates
  {
  }

  /** Toggling an absent date twice gives back the dates. */
  lemma ToggleDateTwice(dates: seq<string>, date: string)
    requires date !in dates
    ensures ToggleDate(ToggleDate(dates, date), date) == dates
  {
    RemoveAllConcat(dates, [date], date);
    RemoveAllAbsent(dates, date);
    assert RemoveAll([date], date) == [];
  }

  /** Toggling a date twice gives back the original list when the first
      habit with the id did not hold the date. */
  lemma ToggleTwiceRestores(habits: seq<LegacyHabit>, id: string, date: string)
    requires var first := FirstWithKey(habits, IdOf, id);
             first.Some? ==> date !in habits[first.value].completedDates
    ensures ToggleCompletion(ToggleCompletion(habits, id, date), id, date) == habits
  {
    var once := ToggleCompletion(habits, id, date);
    FirstWithKeySameKeys(habits, once, id);
    var first := FirstWithKey(habits, IdOf, id);
    if first.Some? {
      var i := first.value;
      ToggleDateTwice(habits[i].completedDates, date);
      assert ToggleCompletion(once, id, date)[i] == habits[i];
    }
  }

  /** The first position of an id depends on the ids alone. */
  lemma FirstWithKeySameKeys(s: seq<LegacyHabit>, t: seq<LegacyHabit>, id: string)
    requires |s| == |t| && forall i :: 0 <= i < |s| ==> s[i].id == t[i].id
    ensures FirstWithKey(s, IdOf, id) == FirstWithKey(t, IdOf, id)
  {
  }
}

=== FILE: reset.dfy ===
/**
 The reset evaluation the context store runs over every habit when it loads:
 a completion that has gone stale for the habit's cadence is cleared, and the
 streak is zeroed once the cadence's one-window grace has also passed.
 */
module Reset {
  import opened Wrappers
  import opened Calendar
  import opened Habits

  /** The two flags of one evaluation: clear `completed`, and zero `streak`. */
  datatype Decision = Decision(clearCompleted: bool, zeroStreak: bool)

  /** The length of the elapsed-time window of the two timed cadences. */
  function Window(frequency: Frequency): int
    requires frequency == Minutely || frequency == Hourly
  {
    if frequency == Minutely then MsPerMinute else MsPerHour
  }

  /** The week start of the weekly cadence: the instant the given number of
      days back that lands on the Monday on or before `t` (Sunday goes back
      six days), at the same local time of day as `t`. */
  function WeekStart(zone: Zone, t: Instant): (r: Instant)
    ensures Weekday(LocalDay(zone, r)) == 1
    ensures LocalDay(zone, t) - 6 <= LocalDay(zone, r) <= LocalDay(zone, t)
    ensures LocalDay(zone, r) == 7 * WeekOf(LocalDay(zone, t)) - 3
    ensures LocalTimeOfDay(zone, r) == LocalTimeOfDay(zone, t)
  {
    var day := Weekday(LocalDay(zone, t));
    var diff := (if day == 0 then -6 else 1) - day;
    ShiftByDays(zone, t, diff);
    t + diff * MsPerDay
  }

  /** Whether a completion at `last` is stale at `now`, and whether its grace
      window has passed too, for the given cadence. */
  function Decide(zone: Zone, frequency: Frequency, last: Instant, now: Instant): (d: Decision)
    ensures d.zeroStreak ==> d.clearCompleted
  {
    match frequency
    case Minutely | Hourly =>
      var elapsed := now - last;
      Decision(elapsed >= Window(frequency), elapsed >= 2 * Window(frequency))
    case Daily =>
      var isToday := LocalDate(zone, last) == LocalDate(zone, now);
      var wasYesterday := LocalDate(zone, last) == LocalDate(zone, now - MsPerDay);
      Decision(!isToday, !isToday && !wasYesterday)
    case Weekly =>
      var currentWeekStart := WeekStart(zone, now);
      var lastCompletedWeekStart := WeekStart(zone, last);
      var shouldReset := currentWeekStart != lastCompletedWeekStart;
      var lastWeekStart := currentWeekStart - 7 * MsPerDay;
      Decision(shouldReset, shouldReset && lastCompletedWeekStart != lastWeekStart)
  }

  /** One habit through reset evaluation at `now`. Only `completed` (cleared)
      and `streak` (zeroed or kept) can change. */
  function Evaluate(zone: Zone, h: Habit, now: Instant): (r: Habit)
    ensures h.lastCompleted.None? ==> r == h
    ensures r == h.(completed := r.completed, streak := r.streak)
    ensures r == h || !r.completed
    ensures r.streak == h.streak || r.streak == 0
    ensures WellFormed(h) ==> WellFormed(r) && r.streak <= h.streak
  {
    match h.lastCompleted
    case None => h
    case Some(last) =>
      var d := Decide(zone, h.frequency, last, now);
      if d.clearCompleted || d.zeroStreak then
        h.(completed := false, streak := if d.zeroStreak then 0 else h.streak)
      else
        h
  }

  /** Every habit of the list through reset evaluation at one `now`. */
  function EvaluateAll(zone: Zone, habits: seq<Habit>, now: Instant): (r: seq<Habit>)
    ensures |r| == |habits|
    ensures forall i :: 0 <= i < |r| ==> r[i] == Evaluate(zone, habits[i], now)
  {
    seq(|habits|, i requires 0 <= i < |habits| => Evaluate(zone, habits[i], now))
  }

  /** Loading: the stored list, if any could be read, through reset evaluation;
      otherwise the initial empty list. */
  function Load(zone: Zone, stored: Option<seq<Habit>>, now: Instant): (r: seq<Habit>)
    ensures stored.None? ==> r == []
    ensures stored.Some? ==> r == EvaluateAll(zone, stored.value, now)
    ensures stored.Some? ==> |r| == |stored.value|
    ensures stored.Some? ==> forall i :: 0 <= i < |r| ==>
              r[i] == stored.value[i].(completed := r[i].completed, streak := r[i].streak)
    ensures stored.Some? && AllWellFormed(stored.value) ==> AllWellFormed(r)
  {
    match stored
    case None => []
    case Some(habits) => EvaluateAll(zone, habits, now)
  }

  /** The timed cadences: less than one window since the completion (or a
      completion in the future) changes nothing, one to two windows clears
      the completion and keeps the streak, two windows or more also zeroes it. */
  lemma TimedCadence(zone: Zone, h: Habit, now: Instant)
    requires h.frequency == Minutely || h.frequency == Hourly
    requires h.lastCompleted.Some?
    ensures var elapsed := now - h.lastCompleted.value;
            var w := if h.frequency == Minutely then 60_000 else 3_600_000;
            && (elapsed < w ==> Evaluate(zone, h, now) == h)
            && (w <= elapsed < 2 * w ==> Evaluate(zone, h, now) == h.(completed := false))
            && (2 * w <= elapsed ==> Evaluate(zone, h, now) == h.(completed := false, streak := 0))
  {
  }

  /** The daily cadence by local day number: the same local day changes
      nothing, the day before clears the completion and keeps the streak, any
      other day (a later one, or a day in the future) also zeroes it. */
  lemma DailyCadence(zone: Zone, h: Habit, now: Instant)
    requires h.frequency == Daily
    requires h.lastCompleted.Some?
    ensures var lastDay := LocalDay(zone, h.lastCompleted.value);
            var today := LocalDay(zone, now);
            && (lastDay == today ==> Evaluate(zone, h, now) == h)
            && (lastDay == today - 1 ==> Evaluate(zone, h, now) == h.(completed := false))
            && (lastDay != today && lastDay != today - 1 ==>
                  Evaluate(zone, h, now) == h.(completed := false, streak := 0))
  {
    var last := h.lastCompleted.value;
    ShiftByDays(zone, now, -1);
    CivilInjective(LocalDay(zone, last), LocalDay(zone, now));
    CivilInjective(LocalDay(zone, last), LocalDay(zone, now - MsPerDay));
  }

  /** The weekly cadence as written: week starts keep the time of day, so a
      completion counts as "this week" only when it lies in the current
      Monday-based local week AND at the same local time of day as `now`, and
      as "last week" only in the week before at that same time of day. Any
      other completion also zeroes the streak. */
  lemma WeeklyCadence(zone: Zone, h: Habit, now: Instant)
    requires h.frequency == Weekly
    requires h.lastCompleted.Some?
    ensures var last := h.lastCompleted.value;
            var lastWeek := WeekOf(LocalDay(zone, last));
            var thisWeek := WeekOf(LocalDay(zone, now));
            var sameTime := LocalTimeOfDay(zone, last) == LocalTimeOfDay(zone, now);
            && (lastWeek == thisWeek && sameTime ==> Evaluate(zone, h, now) == h)
            && (lastWeek == thisWeek - 1 && sameTime ==> Evaluate(zone, h, now) == h.(completed := false))
            && (!(lastWeek == thisWeek && sameTime) && !(lastWeek == thisWeek - 1 && sameTime) ==>
                  Evaluate(zone, h, now) == h.(completed := false, streak := 0))
  {
  }

  /** Weekly week starts compared with their time of day: a weekly habit
      completed at 09:00 on a Monday and evaluated at 10:00 the same Monday
      has its completion cleared and its streak zeroed. */
  lemma WeeklySameMondayLaterHourZeroes(h: Habit)
    requires h.frequency == Weekly && h.streak == 3 && h.completed
    requires h.lastCompleted == Some(4 * MsPerDay + 9 * MsPerHour)
    ensures Weekday(LocalDay(Zone(0), 4 * MsPerDay + 9 * MsPerHour)) == 1
    ensures Evaluate(Zone(0), h, 4 * MsPerDay + 10 * MsPerHour) == h.(completed := false, streak := 0)
  {
  }

  /** Evaluating twice at the same instant is evaluating once. */
  lemma EvaluateIdempotent(zone: Zone, h: Habit, now: Instant)
    ensures Evaluate(zone, Evaluate(zone, h, now), now) == Evaluate(zone, h, now)
  {
  }

  /** The whole list evaluated twice at the same instant is the list evaluated once. */
  lemma EvaluateAllIdempotent(zone: Zone, habits: seq<Habit>, now: Instant)
    ensures EvaluateAll(zone, EvaluateAll(zone, habits, now), now) == EvaluateAll(zone, habits, now)
  {
  }
}

=== FILE: seqs.dfy ===
/**
 The three array idioms the stores are written with, as functions on
 sequences: `filter` by value, `filter` by key, and `find` by key.
 */
module Seqs {
  import opened Wrappers

  /** `s.filter(x => x !== v)`: every element other than `v`, in order. */
  function RemoveAll<T(==)>(s: seq<T>, v: T): (r: seq<T>)
    ensures multiset(r) == multiset(s)[v := 0]
    ensures v !in r
    ensures forall i :: 0 <= i < |s| && s[i] != v ==> s[i] in r
    ensures forall i :: 0 <= i < |r| ==> r[i] in s
  {
    if |s| == 0 then []
    else
      assert s == [s[0]] + s[1..];
      if s[0] == v then RemoveAll(s[1..], v) else [s[0]] + RemoveAll(s[1..], v)
  }

  /** `s.filter(x => key(x) !== k)`: every element whose key is not `k`, in order. */
  function RemoveKey<T, K(==)>(s: seq<T>, key: T -> K, k: K): (r: seq<T>)
    ensures |r| <= |s|
    ensures forall i :: 0 <= i < |r| ==> key(r[i]) != k
    ensures forall i :: 0 <= i < |s| && key(s[i]) != k ==> s[i] in r
    ensures forall x :: x in r ==> x in s
  {
    if |s| == 0 then []
    else if key(s[0]) == k then RemoveKey(s[1..], key, k)
    else [s[0]] + RemoveKey(s[1..], key, k)
  }

  /** `s.findIndex(x => key(x) === k)`: the first position holding key `k`, if any. */
  function FirstWithKey<T, K(==)>(s: seq<T>, key: T -> K, k: K): (r: Option<nat>)
    ensures r.Some? ==> r.value < |s| && key(s[r.value]) == k
    ensures r.Some? ==> forall j :: 0 <= j < r.value ==> key(s[j]) != k
    ensures r.None? <==> forall j :: 0 <= j < |s| ==> key(s[j]) != k
  {
    if |s| == 0 then None
    else if key(s[0]) == k then Some(0)
    else
      match FirstWithKey(s[1..], key, k)
      case Some(i) => Some(i + 1)
      case None => None
  }

  /** Removing a value that is absent changes nothing. */
  lemma {:induction false} RemoveAllAbsent<T>(s: seq<T>, v: T)
    requires v !in s
    ensures RemoveAll(s, v) == s
  {
    if |s| > 0 {
      RemoveAllAbsent(s[1..], v);
    }
  }

  /** Removal works piecewise, so it keeps the survivors in their order. */
  lemma {:induction false} RemoveAllConcat<T>(a: seq<T>, b: seq<T>, v: T)
    ensures RemoveAll(a + b, v) == RemoveAll(a, v) + RemoveAll(b, v)
  {
    if |a| > 0 {
      assert (a + b)[1..] == a[1..] + b;
      RemoveAllConcat(a[1..], b, v);
    } else {
      assert a + b == b;
    }
  }

  /** Removal by key works piecewise, so it keeps the survivors in their order. */
  lemma {:induction false} RemoveKeyConcat<T, K>(a: seq<T>, b: seq<T>, key: T -> K, k: K)
    ensures RemoveKey(a + b, key, k) == RemoveKey(a, key, k) + RemoveKey(b, key, k)
  {
    if |a| > 0 {
      assert (a + b)[1..] == a[1..] + b;
      RemoveKeyConcat(a[1..], b, key, k);
    } else {
      assert a + b == b;
    }
  }

  /** Removal by a key nobody holds changes nothing. */
  lemma {:induction false} RemoveKeyAbsent<T, K>(s: seq<T>, key: T -> K, k: K)
    requires forall i :: 0 <= i < |s| ==> key(s[i]) != k
    ensures RemoveKey(s, key, k) == s
  {
    if |s| > 0 {
      RemoveKeyAbsent(s[1..], key, k);
    }
  }
}

=== FILE: weather.dfy ===
/**
 The weather card's classifiers: the icon and the description of a WMO
 weather code, and a gradient from the code and the local hour. The card
 defines the gradient but does not apply it; its background is a fixed
 purple while loading and when showing a report, and a fixed gray when the
 report is unavailable. The fetched report is reduced to its code, and `None` stands
 for "no report yet".
 */
module Weather {
  import opened Wrappers

  datatype Icon = Sun | Cloud | CloudRain

  const DefaultGradient := "from-blue-400 to-blue-600"
  const NightGradient := "from-indigo-900 to-purple-900"
  const ClearGradient := "from-amber-400 via-orange-400 to-pink-500"
  const WetGradient := "from-gray-500 to-blue-600"
  const CloudyGradient := "from-blue-400 to-cyan-500"

  /** `getWeatherIcon`: codes 0 and 1 show the sun, 2 and 3 a cloud, every
      other code rain. */
  function WeatherIcon(code: int): (r: Icon)
    ensures r == Sun <==> code == 0 || code == 1
    ensures r == Cloud <==> code == 2 || code == 3
    ensures r == CloudRain <==> code !in {0, 1, 2, 3}
  {
    if code == 0 || code == 1 then Sun
    else if code == 2 || code == 3 then Cloud
    else CloudRain
  }

  /** `getWeatherDescription`: one text for each of the codes 0 to 3, one per
      precipitation range, and "Cloudy" for everything else. */
  function WeatherDescription(code: int): (r: string)
    ensures r == "Clear Sky" <==> code == 0
    ensures r == "Mainly Clear" <==> code == 1
    ensures r == "Partly Cloudy" <==> code == 2
    ensures r == "Overcast" <==> code == 3
    ensures r == "Rainy" <==> 51 <= code <= 67
    ensures r == "Snowy" <==> 71 <= code <= 77
    ensures r == "Rain Showers" <==> 80 <= code <= 82
    ensures r == "Cloudy" <==>
              code < 0 || 4 <= code <= 50 || 68 <= code <= 70 || 78 <= code <= 79 || 83 <= code
  {
    if code == 0 then "Clear Sky"
    else if code == 1 then "Mainly Clear"
    else if code == 2 then "Partly Cloudy"
    else if code == 3 then "Overcast"
    else if 51 <= code <= 67 then "Rainy"
    else if 71 <= code <= 77 then "Snowy"
    else if 80 <= code <= 82 then "Rain Showers"
    else "Cloudy"
  }

  /** Before 06:00 or after 20:59. */
  predicate IsNight(hour: int)
  {
    hour < 6 || hour > 20
  }

  /** `getGradientColors`, with the report's code (if any) and the local hour
      as inputs: the blue default without a report at every hour; with one,
      the night gradient exactly at night, over every code. */
  function GradientColors(weatherCode: Option<int>, hour: int): (r: string)
    ensures weatherCode.None? ==> r == DefaultGradient
    ensures r == NightGradient <==> weatherCode.Some? && IsNight(hour)
    ensures weatherCode.Some? && !IsNight(hour) ==> r in {ClearGradient, WetGradient, CloudyGradient}
  {
    match weatherCode
    case None => DefaultGradient
    case Some(code) =>
      if IsNight(hour) then NightGradient
      else if code == 0 || code == 1 then ClearGradient
      else if code >= 51 then WetGradient
      else CloudyGradient
  }

  /** The icon and the description agree: the sun shows exactly for the two
      clear descriptions, the cloud exactly for the two cloudy ones. */
  lemma IconMatchesDescription(code: int)
    ensures WeatherIcon(code) == Sun <==> WeatherDescription(code) in {"Clear Sky", "Mainly Clear"}
    ensures WeatherIcon(code) == Cloud <==> WeatherDescription(code) in {"Partly Cloudy", "Overcast"}
  {
  }

  /** By day the gradient follows the code: amber exactly when the sun icon
      shows, gray for every precipitation description, blue-cyan otherwise. */
  lemma DaytimeGradient(code: int, hour: int)
    requires !IsNight(hour)
    ensures GradientColors(Some(code), hour) == ClearGradient <==> WeatherIcon(code) == Sun
    ensures WeatherDescription(code) in {"Rainy", "Snowy", "Rain Showers"} ==>
              GradientColors(Some(code), hour) == WetGradient
    ensures GradientColors(Some(code), hour) == WetGradient <==> code >= 51
    ensures GradientColors(Some(code), hour) == CloudyGradient <==> code < 51 && code != 0 && code != 1
  {
  }
}

=== FILE: wrappers.dfy ===
/** The optional value used for JavaScript's `null`/`undefined` and for "not found". */
module Wrappers {

  datatype Option<+T> = None | Some(value: T) {

    /** The value held in `Some`, or `default` for `None`. */
    function GetOr(default: T): T
    {
      match this
      case Some(v) => v
      case None => default
    }
  }
}
